=== FILE: README.md ===
# Portfolio list editors: a Dafny model

The portfolio is a single-page React site (`App.tsx`). Four sections (experience, education,
projects and skills) each keep an ordered list of records. Every record has a string id. The
owner edits the lists in place through modal forms, and each list is mirrored into the
browser's `localStorage` under its own key, so edits survive a reload.

This project models that state layer as pure functions over immutable datatypes:

- `Text` (`text.dfy`): the comma-separated list fields. It covers JavaScript `trim`, using the
  whitespace set of ECMA-262, plus `split(',')` and `join(', ')`. It defines two parses: the
  unfiltered one (experience details, project tech) and the filtered one that drops empty
  pieces (education activities, skill-group skills).
- `Lists` (`lists.dfy`): the three list updates. These are append (`[...xs, x]`), assignment
  into a copy at the remembered index, and delete as `filter((_, i) => i !== idx)`.
- `Persisted` (`persisted.dfy`): `usePersistedState`. Storage is a `map<string, string>`, or
  `Unavailable` when every access throws. `JSON.parse` and `JSON.stringify` are function
  parameters, and parse returns `Option`. Whether a write fits the quota is a `bool`
  parameter.
- `Editor` (`editor.dfy`): the add/edit modal shared by all sections. Its state is the
  records, whether the modal is open, the remembered edit index (`None` while adding) and the
  form. A save yields an `Outcome`: the next state, or `Sparse` when the remembered index lies
  past the end of the list and `updated[i] = record` leaves holes in the array.
- One module per section (`ExperienceSection`, `EducationSection`, `ProjectsSection`,
  `SkillsSection`). Each one defines the record datatype, the blank form and the default
  records. It also defines the form's change events (`Input`) and how each event updates the
  form.
  - Education adds the confirm/cancel delete dialog as an explicit state machine (`Event`,
    `Enabled`, `Inv`, `Step`).
  - Skills keeps raw text in its form. Its save rebuilds the record and copies the id from
    the edited entry; when that entry no longer exists the lookup throws and nothing changes.
- `Scenarios` (`scenarios.dfy`): concrete runs over the default records.

Timestamps from `Date.now().toString()` are `stamp` parameters. The model does not claim ids
are unique, because the code does not ensure it.

Which controls exist, used as preconditions:
- Save, Close and the form's fields exist only while the modal is open; Confirm and Cancel
  only while the delete dialog is open (their markup is rendered only when `isOpen`).
- A card's edit and delete buttons exist for every index of the list, whatever dialog is
  open. The full-screen dialogs cover them for the mouse, but they stay in the tab order, so
  the keyboard reaches them. Card actions are therefore modelled in every state.
- With the mouse only, an open edit always remembers an index inside the list
  (`Editor.Valid`), and a save never writes past the end. A card deleted from the keyboard
  during an edit breaks this: the remembered index is not adjusted, so the save overwrites the
  record that moved into its place, appends (index equal to the length), or makes a sparse
  array (index past the end). In the skills section an index at or past the end makes the id
  lookup throw, so nothing is saved; an index still inside the list overwrites the group that
  moved there, which also gives the saved group that group's id.

Behaviour of the code as written, stated as lemmas:
- Saving an experience or project edit without typing anything changes nothing.
- Education is different: a record without `activities` comes back with `activities: []`.
- Skills round-trips exactly when every skill is non-empty, trimmed and comma-free.
- The experience details, education activities and project tech fields show the parsed list
  joined again, so a space typed at the end of one of them is discarded at once. In the
  activities field a comma typed at the end is discarded too, while in details and tech it
  adds an empty element. The skills field shows its raw text and parses only on save, so
  nothing typed there is discarded before the save.
- A project image upload completes with the form as it was when the file was chosen, so
  fields typed while the file loads are lost.
- The two parses disagree on blank text: the unfiltered parse turns `""` into `[""]`, the
  filtered one into `[]`.

The default records' en dash and right single quote appear as mojibake in `App.tsx`. They are
written here as U+2013 and U+2019.

## Model

| member | source | states |
|---|---|---|
| Text.Trim | App.tsx:704 | `trim` leaves no space at either end of its result |
| Text.TrimIsSlice | App.tsx:704 | `trim` returns a slice of its input with no space at either end; everything cut from the front and the back is space |
| Text.TrimEmpty | App.tsx:860 | a piece trims to "" exactly when it consists only of spaces |
| Text.TrimFixedPoint | App.tsx:704 | `trim` leaves a string unchanged exactly when neither end is a space |
| Text.Split | App.tsx:704 | `split(',')` yields one more piece than there are commas, no piece contains a comma, and joining the pieces with "," gives the input back |
| Text.SplitOfJoin | App.tsx:704 | conversely, splitting the ","-join of a non-empty list of comma-free pieces returns that list |
| Text.SplitSnoc | App.tsx:704 | typing a character at the end extends the last piece; typing a comma adds a new empty piece |
| Text.ParseList | App.tsx:704 | the unfiltered parse has exactly (commas + 1) elements, each trimmed and comma-free; "" parses to [""] |
| Text.JoinWithCommas | App.tsx:704 | in `join(sep)` of n >= 1 comma-free elements the commas are exactly those of the n - 1 separators |
| Text.Join | App.tsx:1018 | the ", "-join shows "" for the empty list and exactly n - 1 commas for n >= 1 comma-free elements |
| Text.DropEmpty | App.tsx:860 | `filter(Boolean)` keeps only non-empty elements taken from the input; the result is empty iff every element is "", and it is the input itself when no element is "" |
| Text.DropEmptySingle | App.tsx:860 | on one element the filter keeps it exactly when it is non-empty |
| Text.DropEmptyAppend | App.tsx:860 | the filter distributes over concatenation, which with the one-element case fixes order and multiplicity of what is kept |
| Text.EmptyPieceDropped | App.tsx:860 | for two non-empty trimmed comma-free words, the unfiltered parse of `a,,b` keeps the empty middle piece as "" and the filtered parse gives exactly the two words in order |
| Text.DropEmptyExample | App.tsx:860 | the filtered parse of "a,,b" is ["a", "b"] |
| Text.ParseNonEmptyList | App.tsx:860 | every element of the filtered parse is non-empty, trimmed and comma-free |
| Text.ParseNonEmptyListEmpty | App.tsx:860 | the filtered parse is empty exactly when the text holds only spaces and commas, so "" and whitespace-only text give [] |
| Text.ParseListCons | App.tsx:704 | parsing `x + ", " + rest` gives `x` followed by the parse of `rest`, for trimmed comma-free `x` |
| Text.ParseListOfJoin | App.tsx:704 | for a non-empty list of trimmed comma-free strings, parsing its ", "-join gives the same list |
| Text.ParseNonEmptyListOfJoin | App.tsx:1043 | for any list of non-empty trimmed comma-free strings, the empty list included, the filtered parse of its ", "-join gives the same list |
| Text.TypedTrailingSpaceDropped | App.tsx:704 | a space typed at the end of a comma field leaves both parses unchanged, so the re-rendered field drops it |
| Text.TypedTrailingComma | App.tsx:860 | a comma typed at the end adds one "" to the unfiltered parse and leaves the filtered parse unchanged |
| Lists.Append | App.tsx:674 | add-save: one more element, the new one at the end, every earlier element at its old index |
| Lists.ReplaceAt | App.tsx:669-672 | edit-save: same length, the new record at the index, every other index unchanged |
| Lists.RemoveAt | App.tsx:693 | the index filter removes exactly the element at an index inside the list, keeping the rest in order (prefix then suffix); for any other index the list is unchanged |
| Lists.RemoveAtCount | App.tsx:812 | a delete at a valid index shortens the list by one and removes exactly one occurrence of that record (multiset) |
| Lists.RemoveAtShift | App.tsx:932 | after a delete, records before the index keep their position and records after it move up by one |
| Persisted.Saved | App.tsx:94 | `getItem` yields the stored string for a key present in working storage, and nothing for a missing key or storage that throws |
| Persisted.Load | App.tsx:92-99 | the initial state is the parsed stored payload when one is present, non-empty and parses; otherwise (missing key, "", parse failure, throwing storage) the default |
| Persisted.Write | App.tsx:101-105 | a write that fits stores the payload under the key; a failed write changes nothing; other keys are untouched |
| Persisted.Mount | App.tsx:91-105 | the mounted cell holds the loaded value (the default for a missing key, the parsed payload when one parses); a write that fits stores that value's serialisation under the key, a failed write or throwing storage leaves storage unchanged, and other keys are untouched |
| Persisted.Update | App.tsx:101-105 | a state change sets the in-memory value whether or not the write succeeds, writes only the cell's key, and a write that does not fit or hits throwing storage leaves storage as it was |
| Persisted.ReloadAfterUpdate | App.tsx:91-105 | after a successful write, a reload restores the value whenever its serialisation is non-empty and parses back to it |
| Persisted.UpdateIsolated | App.tsx:101-105 | an update never changes what any other key loads |
| Persisted.MountStable | App.tsx:91-105 | mounting, writing back and reloading gives the same state again under a round-tripping codec |
| Editor.OpenAdd | App.tsx:685 | the add button clears the edit index, resets the form to the blank template, opens the modal and keeps the records |
| Editor.OpenEdit | App.tsx:692 | the edit button, pressed in any state, remembers an index inside the list, loads the record's copy into the form, opens the modal and keeps the records |
| Editor.Close | App.tsx:698 | closing the modal keeps the records |
| Editor.Commit | App.tsx:668-677 | saving appends when adding, overwrites only the remembered index when it is inside the list, appends when it equals the length, and yields the sparse array (records, gap, record) when it is past the end; a state that keeps the edit index inside the list never yields the sparse array, and a next state closes the modal with the index inside the list |
| Editor.Save | App.tsx:668-677 | add-save appends the form with the timestamp id; edit-save writes the form unchanged at the remembered index, appends it at index = length, and yields a sparse array with the right gap past the end; a valid edit never does |
| Editor.Delete | App.tsx:693 | an immediate delete is the index filter (one shorter for a valid index, unchanged otherwise) and leaves the modal's state alone; with the modal closed the result is valid, and during a valid edit it stays valid exactly unless the edit was at the last index |
| Editor.TypingKeeps | App.tsx:700-704 | if no single change handler alters a part of the form, no run of change events alters it |
| Editor.CancelKeepsItems | App.tsx:698 | opening add, typing anything and closing leaves the records identical |
| Editor.EditThenSave | App.tsx:669-672 | editing index i and saving yields a next state that changes only index i and keeps the length |
| Editor.DeleteDuringEdit | App.tsx:668-693 | deleting (from the keyboard) a card before the one being edited, then saving, leaves the edited record unchanged one index up and writes the form over the record that followed it, or appends the form when the edited record was last |
| ExperienceSection.Apply | App.tsx:700-704 | no form field changes the id; the details field becomes an unfiltered parse with commas + 1 elements; other fields leave details alone |
| ExperienceSection.TypingKeepsId | App.tsx:700-704 | any run of field edits keeps the form's id |
| ExperienceSection.AddSession | App.tsx:673-674 | add, type, save: one record more at the end with the save's timestamp id and the typed fields; earlier records unchanged |
| ExperienceSection.EditSession | App.tsx:668-672 | edit index i, type, save: same length, only index i changes, and its id is the original id |
| ExperienceSection.EditWithoutTyping | App.tsx:692 | opening an edit and saving without typing leaves the records identical |
| EducationSection.Blank | App.tsx:786-787 | the add template has empty text fields, grade "", an empty activities list, and the opening timestamp as its id |
| EducationSection.ActivitiesText | App.tsx:860 | the activities textarea shows "" for a missing or empty list |
| EducationSection.ActivitiesDisplayStable | App.tsx:860 | after an activities edit, the text the textarea shows parses back to the same list, so re-firing the handler changes nothing |
| EducationSection.EditCopy | App.tsx:791-797 | the edit form copies every field, turning a missing activities list into [] and leaving a present one as it is |
| EducationSection.Apply | App.tsx:842-860 | no form field changes the id; activities become a filtered parse with no empty element; a grade edit makes grade present |
| EducationSection.TypingKeepsId | App.tsx:842-860 | any run of field edits keeps the form's id |
| EducationSection.Step | App.tsx:785-866 | every enabled action keeps the pending-delete invariant; only save and confirm change the list; a save yields the sparse array exactly when the edit index lies past the end, and never from a valid edit |
| EducationSection.ConfirmRemovesOne | App.tsx:810-816 | confirm removes exactly the remembered record, keeps the others' order, closes the dialog and clears the delete index |
| EducationSection.CancelKeepsList | App.tsx:866 | cancel only closes the delete dialog: the list and the modal state are unchanged |
| EducationSection.DeleteFlow | App.tsx:832 | asking to delete index i then confirming is the index filter at i; asking then cancelling changes no record |
| EducationSection.EditSession | App.tsx:791-803 | edit index i, type, save: same length, only index i changes, and its id is kept |
| EducationSection.EditWithoutTyping | App.tsx:795 | saving an untouched edit leaves the list unchanged exactly when the record already had an activities list |
| EducationSection.AddSession | App.tsx:785-806 | add, type, save: one record more at the end carrying the save's timestamp, not the opening one |
| EducationSection.DeleteEditedRecord | App.tsx:791-816 | asking to delete (from the keyboard) the record being edited, confirming and saving writes the edit copy back at its index, over the record that followed it or appended when it was last; earlier records are unchanged |
| ProjectsSection.Apply | App.tsx:983-990 | no form field changes the id or the features; the tech field becomes an unfiltered parse with commas + 1 elements |
| ProjectsSection.TypingKeepsId | App.tsx:983-990 | any run of field edits keeps the id and the features |
| ProjectsSection.AddSession | App.tsx:907-908 | add, type, save: one record more at the end with the timestamp id and no features; earlier records unchanged |
| ProjectsSection.EditSession | App.tsx:902-906 | edit index i, type, save: only index i changes, keeping its id and features |
| ProjectsSection.EditWithoutTyping | App.tsx:931 | opening a project and saving without typing leaves the records identical |
| ProjectsSection.FileLoaded | App.tsx:891-899 | the upload's completion sets the image to the data URL and restores every other field to the form captured when the file was chosen; the records and modal state are kept |
| ProjectsSection.UploadAsImageInput | App.tsx:891-899 | with no typing while the file loads, an upload equals typing the data URL into the image field |
| ProjectsSection.UploadDropsTyping | App.tsx:896 | a title typed while the file loads is lost when the upload completes |
| SkillsSection.OpenEdit | App.tsx:1018 | the edit button, pressed in any state, remembers the index, opens the modal, shows the group's title, and shows its skills with exactly one comma between consecutive comma-free skills ("" for none) |
| SkillsSection.Build | App.tsx:1040-1044 | the group is built exactly when the edit index, if any, names an existing entry (otherwise the id lookup throws); it copies that entry's id (the timestamp when adding), takes the typed title, and has only non-empty, trimmed, comma-free skills |
| SkillsSection.Save | App.tsx:1039-1053 | when adding, the built group is appended; when editing an existing index, it is written over that index; either way the modal closes with a valid edit index; when the edit index is at or past the end the id lookup throws and the section is unchanged |
| SkillsSection.SaveKeepsClean | App.tsx:1043 | if every group is clean before a save, every group is clean after it |
| SkillsSection.EditKeepsId | App.tsx:1041-1048 | an edit-save at an existing index keeps the length, changes only the edited index and keeps its id, whatever was typed |
| SkillsSection.AddAppends | App.tsx:1049-1050 | an add-save appends one group with the timestamp id and leaves the others |
| SkillsSection.StaleSaveThrows | App.tsx:1040-1041 | a save whose edit index was left at or past the end by a keyboard delete leaves the section exactly as it was, modal still open |
| SkillsSection.EditWithoutTyping | App.tsx:1018 | opening a group and saving it untouched gives the same list exactly when the group is clean |
| Scenarios.ProjectsAddThenDelete | App.tsx:872-932 | from the default projects, adding "Demo" gives two records with the default first, and deleting index 0 then leaves only "Demo" |
| Scenarios.EducationConfirmOrCancel | App.tsx:762-866 | from the default education list, confirming the delete of index 1 leaves only the bachelor's entry; cancelling keeps both |
| Scenarios.KeyboardDeleteDuringEdit | App.tsx:791-816 | from the default education list, editing index 0, deleting it from the keyboard and saving brings the bachelor's entry back and loses the other entry |
| Scenarios.KeyboardSparseSave | App.tsx:799-803 | editing index 1 of the default education list and deleting both entries from the keyboard leaves an empty list, and the save then yields a sparse array with one hole before the edit copy |
| Scenarios.CorruptPayloadLoadsDefaults | App.tsx:92-99 | a stored payload that does not parse loads each section's default records under its own key, and so does storage that throws |
| Scenarios.ExperienceWriteKeepsOthers | App.tsx:648-1001 | the sections' keys differ, so saving the experience list never changes what education, projects or skills load |

## Left out

- Rendering, styling, `Modal`/`DeleteModal` markup, Navbar, Achievements, Contact and Footer are left out. They are presentation with no state to model.
- The Hero and About single-record editors are left out. Each is a one-field record update with nothing further to state.
- The mouse-following 3D tilt effect (`TiltCard`) and `scrollToSection` are left out. They are floating-point DOM geometry and animation.
- Reading the file through `FileReader` is asynchronous browser I/O and is left out; the data URL is a parameter of `ProjectsSection.FileLoaded`, which models the completion with the form captured when the file was chosen.
- Persisted.Load: `parse` returns `None` or a value of the state's type, so a payload that is valid JSON of the wrong shape is not modelled. The code returns such a value as the state instead of the default. A non-array (`"null"`, `"{}"`) makes every section's `map` throw. An array of wrong-shaped records (`"[1]"`, `"[{}]"`) makes experience (`exp.details.map`, App.tsx:635), projects (`proj.tech.map`, App.tsx:957) and skills (`group.skills.map`, App.tsx:1026) throw, while education shows empty cards, since its card reads only `degree`, `institution` and `period` and guards `grade` and `activities` (App.tsx:739-756). The model only promises the default for payloads that do not parse.
- `localStorage` and `JSON.stringify`/`JSON.parse` are modelled only as a string map and two function parameters, not as real serialisation.
- Persisted.Update: always writes, while React skips the effect when a state update passes the identical value. Every list update in these sections builds a new array, so this never arises for them.
- Editor.Save: a save past the end of the list is modelled only as its `Sparse` outcome (the records, the number of holes, the saved record), and nothing after it is followed. In memory the holes are missing entries, which the section's `map` skips, so the next render shows the saved record. A later save or add copies the list with `[...list]`, which turns the holes into `undefined`, and the render after it throws. A later delete uses `filter`, which drops the holes. `JSON.stringify` stores the holes as `null`, so a reload throws when the render reads a field of `null`.
- Events fired while a dialog plays its closing animation are not modelled; the markup is taken to vanish when `isOpen` turns false.
- Experience, projects and skills delete immediately with no confirmation. They are modelled by `Editor.Delete`; only education has the dialog.
- `Date.now()` is a string parameter. The model does not state that timestamps are non-empty, increasing or unique.

=== FILE: editor.dfy ===
/** The add/edit modal every list section keeps beside its records.

    A section holds its records, whether the modal is open, the remembered
    edit position (`null` while adding) and the form. `T` is the record type
    and `F` the form type; they coincide except in the skills section, whose
    form holds raw text. The save and close buttons exist only while the
    modal is open. The card buttons (edit, delete) sit under the full-screen
    modal: the mouse cannot reach them while it is open, but the keyboard
    can, so card actions are modelled in every state. */
module Editor {
  import opened Wrappers
  import Lists

  datatype Editor<T, F> = Editor(items: seq<T>, open: bool, editing: Option<nat>, form: F)

  /** What a save leaves behind: the next state, or, when the remembered
      edit position lies past the end of the list, the sparse array that
      `updated[i] = record` makes there: the records, `gap` empty slots, then
      the saved record. The model follows no event after a sparse save. */
  datatype Outcome<S, T> = Next(state: S) | Sparse(items: seq<T>, gap: nat, record: T)

  /** An open modal in edit mode remembers a position inside the list. Only
      a card deleted from the keyboard while an edit is open breaks this. */
  predicate Valid<T, F>(e: Editor<T, F>)
  {
    e.open && e.editing.Some? ==> e.editing.value < |e.items|
  }

  /** The section as first rendered: the loaded records, modal closed, no
      edit position, the blank form. */
  function Start<T, F>(items: seq<T>, blank: F): (e: Editor<T, F>)
    ensures e.items == items && !e.open && e.editing == None && e.form == blank
    ensures Valid(e)
  {
    Editor(items, false, None, blank)
  }

  /** The "add" button: no edit position, the blank template, modal open. */
  function OpenAdd<T, F>(e: Editor<T, F>, blank: F): (r: Editor<T, F>)
    ensures r.items == e.items && r.open && r.editing == None && r.form == blank
    ensures Valid(r)
  {
    Editor(e.items, true, None, blank)
  }

  /** A card's edit button at position `i`: remember `i`, load the given copy
      of the record into the form, open the modal. Pressed from the keyboard
      while the modal is open, it replaces the form being edited. */
  function OpenEdit<T, F>(e: Editor<T, F>, i: nat, copy: F): (r: Editor<T, F>)
    requires i < |e.items|
    ensures r.items == e.items && r.open && r.editing == Some(i) && r.form == copy
    ensures Valid(r)
  {
    Editor(e.items, true, Some(i), copy)
  }

  /** The modal's close button: the form is dropped, nothing is saved. */
  function Close<T, F>(e: Editor<T, F>): (r: Editor<T, F>)
    ensures r.items == e.items && !r.open && r.editing == e.editing
    ensures Valid(r)
  {
    e.(open := false)
  }

  /** Stores a finished record and closes the modal: appended when adding,
      assigned at the remembered position when editing. JavaScript's
      assignment overwrites a position inside the list, appends at its end,
      and leaves holes past it. */
  function Commit<T, F>(e: Editor<T, F>, record: T): (r: Outcome<Editor<T, F>, T>)
    requires e.open
    ensures r.Sparse? <==> e.editing.Some? && e.editing.value > |e.items|
    ensures r.Sparse? ==> r.items == e.items && |e.items| + r.gap == e.editing.value && r.record == record
    ensures r.Next? ==> !r.state.open && r.state.editing == e.editing && r.state.form == e.form && Valid(r.state)
    ensures e.editing.None? || e.editing.value == |e.items| ==>
              r.Next? && |r.state.items| == |e.items| + 1 && r.state.items[|e.items|] == record
              && forall j :: 0 <= j < |e.items| ==> r.state.items[j] == e.items[j]
    ensures e.editing.Some? && e.editing.value < |e.items| ==>
              r.Next? && |r.state.items| == |e.items| && r.state.items[e.editing.value] == record
              && forall j :: 0 <= j < |e.items| && j != e.editing.value ==> r.state.items[j] == e.items[j]
    ensures Valid(e) ==> r.Next?
  {
    match e.editing
    case None => Next(Editor(Lists.Append(e.items, record), false, e.editing, e.form))
    case Some(i) =>
      if i < |e.items| then Next(Editor(Lists.ReplaceAt(e.items, i, record), false, e.editing, e.form))
      else if i == |e.items| then Next(Editor(Lists.Append(e.items, record), false, e.editing, e.form))
      else Sparse(e.items, i - |e.items|, record)
  }

  /** `handleSave` of the sections whose form is a record: when adding, the
      form gets a fresh id (`withId(form, stamp)` for
      `{ ...formData, id: Date.now().toString() }`); when editing, the form is
      stored as it is. */
  function Save<T>(e: Editor<T, T>, stamp: string, withId: (T, string) -> T): (r: Outcome<Editor<T, T>, T>)
    requires e.open
    ensures Valid(e) ==> r.Next?
    ensures r.Next? ==> !r.state.open && Valid(r.state)
    ensures e.editing.None? ==> r.Next? && r.state.items == Lists.Append(e.items, withId(e.form, stamp))
    ensures e.editing.Some? && e.editing.value < |e.items| ==>
              r.Next? && r.state.items == Lists.ReplaceAt(e.items, e.editing.value, e.form)
    ensures e.editing.Some? && e.editing.value == |e.items| ==>
              r.Next? && r.state.items == Lists.Append(e.items, e.form)
    ensures e.editing.Some? && e.editing.value > |e.items| ==>
              r == Sparse(e.items, e.editing.value - |e.items|, e.form)
  {
    Commit(e, if e.editing.None? then withId(e.form, stamp) else e.form)
  }

  /** A card's delete button at `idx`, without confirmation. While an edit
      is open (a keyboard press), the remembered position is not adjusted:
      it stays inside the list unless it was the last position. */
  function Delete<T, F>(e: Editor<T, F>, idx: int): (r: Editor<T, F>)
    ensures r.items == Lists.RemoveAt(e.items, idx)
    ensures 0 <= idx < |e.items| ==> |r.items| == |e.items| - 1
    ensures !(0 <= idx < |e.items|) ==> r.items == e.items
    ensures r.open == e.open && r.editing == e.editing && r.form == e.form
    ensures !e.open ==> Valid(r)
    ensures Valid(e) && 0 <= idx < |e.items| ==>
              (Valid(r) <==> !(e.open && e.editing == Some(|e.items| - 1)))
  {
    e.(items := Lists.RemoveAt(e.items, idx))
  }

  /** The form after a run of change events, oldest first; `apply` is the
      section's change handler. */
  function TypeAll<F, I>(form: F, inputs: seq<I>, apply: (F, I) -> F): F
    decreases |inputs|
  {
    if inputs == [] then form else TypeAll(apply(form, inputs[0]), inputs[1..], apply)
  }

  /** A single change event is its handler applied once. */
  lemma TypeAllOne<F, I>(form: F, input: I, apply: (F, I) -> F)
    ensures TypeAll(form, [input], apply) == apply(form, input)
  {
    assert [input][1..] == [];
  }

  /** If no single change event alters a part of the form (its id, say),
      no run of them does. */
  lemma {:induction false} TypingKeeps<F, I, K>(form: F, inputs: seq<I>, apply: (F, I) -> F, part: F -> K)
    requires forall f, i :: part(apply(f, i)) == part(f)
    ensures part(TypeAll(form, inputs, apply)) == part(form)
    decreases |inputs|
  {
    if inputs != [] {
      TypingKeeps(apply(form, inputs[0]), inputs[1..], apply, part);
    }
  }

  /** Opening the modal and closing it again, whatever was typed in between,
      leaves the records as they were. */
  lemma CancelKeepsItems<T, F>(e: Editor<T, F>, blank: F, typed: F)
    ensures Close(OpenAdd(e, blank).(form := typed)).items == e.items
  {
  }

  /** Editing position `i`, changing the form to `typed` and saving puts
      `typed` at `i` and leaves every other record where it was. */
  lemma EditThenSave<T>(e: Editor<T, T>, i: nat, typed: T, stamp: string, withId: (T, string) -> T)
    requires i < |e.items|
    ensures var r := Save(OpenEdit(e, i, e.items[i]).(form := typed), stamp, withId);
            && r.Next? && |r.state.items| == |e.items| && r.state.items[i] == typed
            && forall j :: 0 <= j < |e.items| && j != i ==> r.state.items[j] == e.items[j]
  {
  }

  /** A card before the edited one deleted from the keyboard during an
      edit: the remembered position now names the next record. The save
      leaves the edited record unchanged one position up and puts the form
      over the record that followed it (lost), or appends the form when the
      edited record was the last one. */
  lemma DeleteDuringEdit<T>(e: Editor<T, T>, i: nat, idx: nat, typed: T, stamp: string, withId: (T, string) -> T)
    requires idx < i < |e.items|
    ensures var shown := OpenEdit(e, i, e.items[i]);
            var r := Save(Delete(shown, idx).(form := typed), stamp, withId);
            && r.Next?
            && r.state.items[i - 1] == e.items[i]
            && r.state.items[i] == typed
            && (i < |e.items| - 1 ==> |r.state.items| == |e.items| - 1)
            && (i == |e.items| - 1 ==> |r.state.items| == |e.items|)
  {
    Lists.RemoveAtShift(e.items, idx);
  }
}

=== FILE: education.dfy ===
/** The education section: like the other sections, plus a confirmation
    dialog in front of delete. Its optional fields (`grade?`,
    `activities?`) are `Option`s. */
module EducationSection {
  import opened Wrappers
  import Text
  import Lists
  import E = Editor

  datatype Education = Education(id: string, degree: string, institution: string, period: string,
                                 grade: Option<string>, activities: Option<seq<string>>)

  /** The add/edit modal, the delete dialog's visibility, and the position
      the dialog would delete (`deleteIdx`, `null` as `None`). */
  datatype Section = Section(editor: E.Editor<Education, Education>, deleteOpen: bool, deleteIdx: Option<nat>)

  const Key: string := "ast_edu_data_final"

  const Defaults: seq<Education> := [
    Education("1", "Bachelor\U{2019}s in Computer Software Engineering",
              "National University of Sciences and Technology (NUST)", "Oct 2024 \U{2013} Jul 2028",
              Some("Grade: A"), Some(["Devcon 2025 team", "Sports participation"])),
    Education("2", "Intermediate Pre-Engineering", "Punjab Group Of Colleges", "2022", None, None)
  ]

  /** `handleOpenAdd`'s template; its id is the timestamp at opening, which
      the save then replaces. */
  function Blank(stamp: string): (r: Education)
    ensures r.id == stamp
    ensures r.degree == "" && r.institution == "" && r.period == ""
    ensures r.grade == Some("") && r.activities == Some([])
  {
    Education(stamp, "", "", "", Some(""), Some([]))
  }

  /** `handleOpenEdit`'s copy: every field of the record, with a missing
      activities list turned into an empty one. */
  function EditCopy(item: Education): (r: Education)
    ensures r.id == item.id && r.degree == item.degree && r.institution == item.institution
    ensures r.period == item.period && r.grade == item.grade
    ensures r.activities.Some?
    ensures item.activities.Some? ==> r == item
    ensures item.activities.None? ==> r.activities == Some([])
  {
    item.(activities := Some(item.activities.GetOr([])))
  }

  /** The activities textarea's text: `activities?.join(', ') || ''`. A
      missing or empty list shows as empty text. */
  function ActivitiesText(a: Option<seq<string>>): (r: string)
    ensures a.None? || a == Some([]) ==> r == ""
  {
    Text.Join(a.GetOr([]))
  }

  datatype Input = Degree(text: string) | Institution(text: string) | Period(text: string)
                 | Grade(text: string) | Activities(text: string)

  /** A form field's change handler; the activities textarea uses the
      filtered comma parse. */
  function Apply(form: Education, input: Input): (r: Education)
    ensures r.id == form.id
    ensures input.Activities? ==>
              (r.activities.Some? && forall k :: 0 <= k < |r.activities.value| ==> r.activities.value[k] != "")
    ensures input.Grade? ==> r.grade.Some?
    ensures !input.Activities? ==> r.activities == form.activities
  {
    match input
    case Degree(t) => form.(degree := t)
    case Institution(t) => form.(institution := t)
    case Period(t) => form.(period := t)
    case Grade(t) => form.(grade := Some(t))
    case Activities(t) => form.(activities := Some(Text.ParseNonEmptyList(t)))
  }

  /** After an edit of the activities textarea the field shows the parsed
      list joined with ", ", and that shown text parses back to the same
      list: re-firing the handler with it leaves the form unchanged. */
  lemma ActivitiesDisplayStable(form: Education, t: string)
    ensures var f := Apply(form, Activities(t));
            Apply(f, Activities(ActivitiesText(f.activities))) == f
  {
    Text.ParseNonEmptyListOfJoin(Text.ParseNonEmptyList(t));
  }

  /** The form after a run of change events. */
  function ApplyAll(form: Education, inputs: seq<Input>): Education
  {
    E.TypeAll(form, inputs, Apply)
  }

  /** No run of change events alters the id. */
  lemma TypingKeepsId(form: Education, inputs: seq<Input>)
    ensures ApplyAll(form, inputs).id == form.id
  {
    E.TypingKeeps(form, inputs, Apply, (x: Education) => x.id);
  }

  function WithId(x: Education, id: string): Education
  {
    x.(id := id)
  }

  /** The user actions of the section. `Type`, `Close` and `Save` live in
      the modal, `Confirm` and `Cancel` in the delete dialog, and exist only
      while their dialog is open. The card buttons (`OpenEdit`, `AskDelete`)
      and the add button (`OpenAdd`) sit under both full-screen dialogs: a
      mouse cannot reach them while one is open, the keyboard can. */
  datatype Event =
    | OpenAdd(openStamp: string)
    | OpenEdit(index: nat)
    | Type(input: Input)
    | Close
    | Save(saveStamp: string)
    | AskDelete(target: nat)
    | Confirm
    | Cancel

  /** The control the event comes from is on the page: a card exists for
      every position of the list, and a dialog's buttons exist while it is
      open. */
  predicate Enabled(s: Section, ev: Event)
  {
    match ev
    case OpenAdd(_) => true
    case OpenEdit(i) => i < |s.editor.items|
    case AskDelete(i) => i < |s.editor.items|
    case Type(_) => s.editor.open
    case Close => s.editor.open
    case Save(_) => s.editor.open
    case Confirm => s.deleteOpen
    case Cancel => s.deleteOpen
  }

  /** An open delete dialog has a position inside the list to delete. */
  predicate Inv(s: Section)
  {
    s.deleteOpen ==> s.deleteIdx.Some? && s.deleteIdx.value < |s.editor.items|
  }

  function Start(items: seq<Education>): (s: Section)
    ensures Inv(s) && s.editor.items == items && E.Valid(s.editor)
    ensures !s.editor.open && !s.deleteOpen
  {
    Section(E.Start(items, Blank("")), false, None)
  }

  /** One user action. The list changes only on a save or on a confirmed
      delete; every action keeps the invariant. A save at a position left
      past the end by keyboard deletes makes a sparse array, after which the
      model stops. */
  function Step(s: Section, ev: Event): (r: E.Outcome<Section, Education>)
    requires Enabled(s, ev)
    ensures r.Sparse? <==> ev.Save? && s.editor.editing.Some? && s.editor.editing.value > |s.editor.items|
    ensures r.Next? && Inv(s) ==> Inv(r.state)
    ensures !ev.Save? && !ev.Confirm? ==> r.Next? && r.state.editor.items == s.editor.items
    ensures ev.Save? && E.Valid(s.editor) ==> r.Next? && E.Valid(r.state.editor)
  {
    match ev
    case OpenAdd(stamp) =>
      E.Next(s.(editor := E.OpenAdd(s.editor, Blank(stamp))))
    case OpenEdit(i) =>
      E.Next(s.(editor := E.OpenEdit(s.editor, i, EditCopy(s.editor.items[i]))))
    case Type(input) =>
      E.Next(s.(editor := s.editor.(form := Apply(s.editor.form, input))))
    case Close =>
      E.Next(s.(editor := E.Close(s.editor)))
    case Save(stamp) =>
      (match E.Save(s.editor, stamp, WithId)
       case Next(ed) => E.Next(s.(editor := ed))
       case Sparse(items, gap, record) => E.Sparse(items, gap, record))
    case AskDelete(i) =>
      E.Next(s.(deleteIdx := Some(i), deleteOpen := true))
    case Confirm =>
      (match s.deleteIdx
       case Some(d) => E.Next(Section(s.editor.(items := Lists.RemoveAt(s.editor.items, d)), false, None))
       case None => E.Next(s))
    case Cancel =>
      E.Next(s.(deleteOpen := false))
  }

  /** Confirming removes exactly the remembered record, keeps the order of
      the rest, closes the dialog and forgets the position. */
  lemma ConfirmRemovesOne(s: Section)
    requires Inv(s) && s.deleteOpen
    ensures var r := Step(s, Confirm);
            var d := s.deleteIdx.value;
            && r.Next?
            && |r.state.editor.items| == |s.editor.items| - 1
            && r.state.editor.items == s.editor.items[..d] + s.editor.items[d + 1..]
            && !r.state.deleteOpen && r.state.deleteIdx == None
  {
  }

  /** Cancelling only closes the dialog. */
  lemma CancelKeepsList(s: Section)
    requires s.deleteOpen
    ensures var r := Step(s, Cancel);
            r.Next? && r.state.editor == s.editor && !r.state.deleteOpen && r.state.deleteIdx == s.deleteIdx
  {
  }

  /** The whole delete flow: asking then confirming deletes position `i`;
      asking then cancelling changes no record. */
  lemma DeleteFlow(s: Section, i: nat)
    requires Enabled(s, AskDelete(i))
    ensures var asked := Step(s, AskDelete(i)).state;
            && Step(asked, Confirm) == E.Next(Section(s.editor.(items := Lists.RemoveAt(s.editor.items, i)), false, None))
            && Step(asked, Cancel).state.editor.items == s.editor.items
  {
  }

  /** Editing position `i` with any inputs and saving keeps the length,
      changes only position `i`, and keeps its id. */
  lemma EditSession(s: Section, i: nat, inputs: seq<Input>, stamp: string)
    requires Enabled(s, OpenEdit(i))
    ensures var shown := Step(s, OpenEdit(i)).state;
            var typed := shown.(editor := shown.editor.(form := ApplyAll(shown.editor.form, inputs)));
            var r := Step(typed, Save(stamp));
            && r.Next?
            && |r.state.editor.items| == |s.editor.items|
            && r.state.editor.items[i].id == s.editor.items[i].id
            && forall j :: 0 <= j < |s.editor.items| && j != i ==> r.state.editor.items[j] == s.editor.items[j]
  {
    TypingKeepsId(EditCopy(s.editor.items[i]), inputs);
  }

  /** Saving an edit without typing leaves the record unchanged exactly when
      it already had an activities list: a missing one comes back as []. */
  lemma EditWithoutTyping(s: Section, i: nat, stamp: string)
    requires Enabled(s, OpenEdit(i))
    ensures var r := Step(Step(s, OpenEdit(i)).state, Save(stamp));
            r.Next? && (r.state.editor.items == s.editor.items <==> s.editor.items[i].activities.Some?)
  {
    var r := Step(Step(s, OpenEdit(i)).state, Save(stamp));
    if r.state.editor.items == s.editor.items {
      assert r.state.editor.items[i] == EditCopy(s.editor.items[i]);
    }
  }

  /** Adding: one more record at the end, with the save's timestamp id. */
  lemma AddSession(s: Section, openStamp: string, inputs: seq<Input>, stamp: string)
    ensures var shown := Step(s, OpenAdd(openStamp)).state;
            var typed := shown.(editor := shown.editor.(form := ApplyAll(shown.editor.form, inputs)));
            var r := Step(typed, Save(stamp));
            && r.Next?
            && |r.state.editor.items| == |s.editor.items| + 1
            && r.state.editor.items[..|s.editor.items|] == s.editor.items
            && r.state.editor.items[|s.editor.items|].id == stamp
  {
  }

  /** Asking to delete the record being edited (from the keyboard) and
      confirming leaves the edit pointing one past its old record: the save
      then overwrites the record that followed it, or appends the form when
      the edited record was the last one. */
  lemma DeleteEditedRecord(s: Section, i: nat, stamp: string)
    requires i < |s.editor.items|
    ensures var shown := Step(s, OpenEdit(i)).state;
            var asked := Step(shown, AskDelete(i)).state;
            var gone := Step(asked, Confirm).state;
            var r := Step(gone, Save(stamp));
            && r.Next?
            && |r.state.editor.items| == |s.editor.items| - (if i < |s.editor.items| - 1 then 1 else 0)
            && r.state.editor.items[i] == EditCopy(s.editor.items[i])
            && forall j :: 0 <= j < i ==> r.state.editor.items[j] == s.editor.items[j]
  {
    Lists.RemoveAtShift(s.editor.items, i);
  }
}

=== FILE: experience.dfy ===
/** The experience section: work entries edited through a modal whose form
    is a copy of the record. */
module ExperienceSection {
  import Text
  import E = Editor

  datatype Experience = Experience(id: string, role: string, company: string, period: string,
                                   location: string, details: seq<string>)

  type Section = E.Editor<Experience, Experience>

  /** The storage key of the section's records. */
  const Key: string := "ast_exp_data"

  /** The form the "add" button resets to. */
  const Blank: Experience := Experience("", "", "", "", "", [])

  /** The records shown when nothing is stored. */
  const Defaults: seq<Experience> := [
    Experience("1", "Human Resources Intern", "GAOTek Inc.", "Sep 2025 \U{2013} Present", "Remote",
               ["Recruitment & Selection Support", "Onboarding & Orientation",
                "Employee Record Management & Engagement", "HR Administration & Reporting"])
  ]

  /** One change event of a form field, carrying the field's new text. */
  datatype Input = Role(text: string) | Company(text: string) | Period(text: string)
                 | Location(text: string) | Details(text: string)

  /** A form field's change handler. No field edits the id; the details
      textarea is parsed with the unfiltered comma parse. */
  function Apply(form: Experience, input: Input): (r: Experience)
    ensures r.id == form.id
    ensures input.Details? ==> |r.details| == Text.Occurrences(input.text, ',') + 1
    ensures !input.Details? ==> r.details == form.details
  {
    match input
    case Role(t) => form.(role := t)
    case Company(t) => form.(company := t)
    case Period(t) => form.(period := t)
    case Location(t) => form.(location := t)
    case Details(t) => form.(details := Text.ParseList(t))
  }

  /** The form after a run of change events. */
  function ApplyAll(form: Experience, inputs: seq<Input>): Experience
  {
    E.TypeAll(form, inputs, Apply)
  }

  /** No run of change events alters the id. */
  lemma TypingKeepsId(form: Experience, inputs: seq<Input>)
    ensures ApplyAll(form, inputs).id == form.id
  {
    E.TypingKeeps(form, inputs, Apply, (x: Experience) => x.id);
  }

  function WithId(x: Experience, id: string): Experience
  {
    x.(id := id)
  }

  function OpenAdd(e: Section): Section
  {
    E.OpenAdd(e, Blank)
  }

  /** `setFormData(exp)`: the form starts as the record itself. */
  function OpenEdit(e: Section, i: nat): Section
    requires i < |e.items|
  {
    E.OpenEdit(e, i, e.items[i])
  }

  function Type(e: Section, inputs: seq<Input>): Section
  {
    e.(form := ApplyAll(e.form, inputs))
  }

  function Save(e: Section, stamp: string): E.Outcome<Section, Experience>
    requires e.open
  {
    E.Save(e, stamp, WithId)
  }

  /** Adding: exactly one record more, at the end, carrying the save's
      timestamp id and the typed fields; the earlier records are untouched. */
  lemma AddSession(e: Section, inputs: seq<Input>, stamp: string)
    ensures var r := Save(Type(OpenAdd(e), inputs), stamp);
            && r.Next?
            && |r.state.items| == |e.items| + 1
            && r.state.items[..|e.items|] == e.items
            && r.state.items[|e.items|].id == stamp
            && r.state.items[|e.items|] == ApplyAll(Blank, inputs).(id := stamp)
  {
  }

  /** Editing position `i`: the length is kept, only position `i` changes,
      and it keeps its id whatever was typed. */
  lemma EditSession(e: Section, i: nat, inputs: seq<Input>, stamp: string)
    requires i < |e.items|
    ensures var r := Save(Type(OpenEdit(e, i), inputs), stamp);
            && r.Next?
            && |r.state.items| == |e.items|
            && r.state.items[i].id == e.items[i].id
            && r.state.items[i] == ApplyAll(e.items[i], inputs)
            && forall j :: 0 <= j < |e.items| && j != i ==> r.state.items[j] == e.items[j]
  {
    TypingKeepsId(e.items[i], inputs);
  }

  /** Saving an edit without typing anything leaves the records as they were. */
  lemma EditWithoutTyping(e: Section, i: nat, stamp: string)
    requires i < |e.items|
    ensures var r := Save(OpenEdit(e, i), stamp);
            r.Next? && r.state.items == e.items
  {
  }
}

=== FILE: lists.dfy ===
/** The three list updates every section performs on its records:
    `[...xs, x]`, `updated[i] = x` on a copy, and
    `xs.filter((_, i) => i !== idx)`. */
module Lists {

  /** `[...xs, x]`: one more element, at the end, the others untouched. */
  function Append<T>(xs: seq<T>, x: T): (r: seq<T>)
    ensures |r| == |xs| + 1
    ensures r[|xs|] == x
    ensures forall j :: 0 <= j < |xs| ==> r[j] == xs[j]
  {
    xs + [x]
  }

  /** Assignment into a copy at an existing position. */
  function ReplaceAt<T>(xs: seq<T>, i: nat, x: T): (r: seq<T>)
    requires i < |xs|
    ensures |r| == |xs|
    ensures r[i] == x
    ensures forall j :: 0 <= j < |xs| && j != i ==> r[j] == xs[j]
  {
    xs[i := x]
  }

  /** `xs.filter((_, i) => i !== idx)`, written as that filter over
      positions: an index inside the list removes exactly that element and
      keeps the order of the rest; any other index removes nothing. */
  function RemoveAt<T>(xs: seq<T>, idx: int): (r: seq<T>)
    ensures 0 <= idx < |xs| ==> r == xs[..idx] + xs[idx + 1..]
    ensures !(0 <= idx < |xs|) ==> r == xs
    decreases |xs|
  {
    if xs == [] then []
    else
      var last := |xs| - 1;
      var front := xs[..last];
      var r := RemoveAt(front, idx) + (if last == idx then [] else [xs[last]]);
      assert xs == front + [xs[last]];
      if 0 <= idx < last then
        assert front[..idx] == xs[..idx];
        assert front[idx + 1..] + [xs[last]] == xs[idx + 1..];
        r
      else
        r
  }

  /** Deleting at an index inside the list shortens it by exactly one and
      removes exactly one occurrence of the deleted record. */
  lemma RemoveAtCount<T>(xs: seq<T>, idx: int)
    requires 0 <= idx < |xs|
    ensures |RemoveAt(xs, idx)| == |xs| - 1
    ensures multiset(RemoveAt(xs, idx)) + multiset{xs[idx]} == multiset(xs)
  {
    var a, b := xs[..idx], xs[idx + 1..];
    SplitAround(xs, idx);
    assert multiset(RemoveAt(xs, idx)) == multiset(a) + multiset(b);
  }

  lemma SplitAround<T>(xs: seq<T>, idx: nat)
    requires idx < |xs|
    ensures multiset(xs) == multiset(xs[..idx]) + multiset{xs[idx]} + multiset(xs[idx + 1..])
  {
    assert xs == xs[..idx] + [xs[idx]] + xs[idx + 1..];
  }

  /** Records before the deleted position keep their index; records after it
      move up by one. */
  lemma RemoveAtShift<T>(xs: seq<T>, idx: int)
    requires 0 <= idx < |xs|
    ensures forall j :: 0 <= j < idx ==> RemoveAt(xs, idx)[j] == xs[j]
    ensures forall j :: idx <= j < |xs| - 1 ==> RemoveAt(xs, idx)[j] == xs[j + 1]
  {
  }
}

=== FILE: persisted.dfy ===
/** `usePersistedState(key, defaultValue)`: a piece of component state
    mirrored into the browser's per-origin key-value storage.

    The storage is a string-to-string map. JSON serialisation and parsing are
    parameters: `serialize` stands for `JSON.stringify` and `parse` for
    `JSON.parse`, with `None` for a payload that does not parse (the call
    throws). Whether a write fits in the storage quota is a parameter too. */
module Persisted {
  import opened Wrappers

  /** The origin's storage. `Unavailable` is storage whose every access
      throws (for instance when the browser blocks it). */
  datatype Storage = Unavailable | Available(entries: map<string, string>)

  /** The hook's in-memory state: the key it mirrors to and the current value. */
  datatype Cell<T> = Cell(key: string, value: T)

  /** What `localStorage.getItem(key)` yields to the initialiser: `None` for a
      missing key or for storage that throws. */
  function Saved(storage: Storage, key: string): (r: Option<string>)
    ensures storage.Unavailable? ==> r.None?
    ensures storage.Available? ==> (r.Some? <==> key in storage.entries)
    ensures r.Some? ==> storage.Available? && r.value == storage.entries[key]
  {
    if storage.Available? && key in storage.entries then Some(storage.entries[key]) else None
  }

  /** The lazy initial state: the parsed stored payload when there is a
      non-empty one that parses; the default when the key is absent, the
      payload is "" (falsy), parsing throws, or the storage throws. */
  function Load<T>(storage: Storage, key: string, default: T, parse: string -> Option<T>): (v: T)
    ensures Saved(storage, key).None? ==> v == default
    ensures Saved(storage, key) == Some("") ==> v == default
    ensures forall p :: Saved(storage, key) == Some(p) && p != "" && parse(p).None? ==> v == default
    ensures forall p :: Saved(storage, key) == Some(p) && p != "" && parse(p).Some? ==> v == parse(p).value
  {
    match Saved(storage, key)
    case None => default
    case Some(payload) =>
      if payload == "" then default else parse(payload).GetOr(default)
  }

  /** `localStorage.setItem(key, payload)` inside the effect's `try`: a write
      that does not fit, or storage that throws, changes nothing. */
  function Write(storage: Storage, key: string, payload: string, fits: bool): (s: Storage)
    ensures Saved(s, key) == (if fits && storage.Available? then Some(payload) else Saved(storage, key))
    ensures forall k :: k != key ==> Saved(s, k) == Saved(storage, k)
  {
    if fits && storage.Available? then Available(storage.entries[key := payload]) else storage
  }

  /** Mounting the hook: the initial state is `Load`, and the effect then
      writes that state back under the same key. */
  function Mount<T>(storage: Storage, key: string, default: T, parse: string -> Option<T>,
                    serialize: T -> string, fits: bool): (r: (Cell<T>, Storage))
    ensures r.0 == Cell(key, Load(storage, key, default, parse))
    ensures Saved(storage, key).None? ==> r.0.value == default
    ensures forall p :: Saved(storage, key) == Some(p) && p != "" && parse(p).Some? ==> r.0.value == parse(p).value
    ensures fits && storage.Available? ==> Saved(r.1, key) == Some(serialize(r.0.value))
    ensures !(fits && storage.Available?) ==> r.1 == storage
    ensures forall k :: k != key ==> Saved(r.1, k) == Saved(storage, k)
  {
    var v := Load(storage, key, default, parse);
    (Cell(key, v), Write(storage, key, serialize(v), fits))
  }

  /** A state update followed by the effect: the in-memory value is the new
      one whether or not the write succeeds, and only the cell's own key is
      written. A write that does not fit, or into storage that throws, is
      swallowed and leaves the storage as it was. */
  function Update<T>(cell: Cell<T>, storage: Storage, v: T, serialize: T -> string, fits: bool): (r: (Cell<T>, Storage))
    ensures r.0 == Cell(cell.key, v)
    ensures fits && storage.Available? ==> Saved(r.1, cell.key) == Some(serialize(v))
    ensures !(fits && storage.Available?) ==> r.1 == storage
    ensures forall k :: k != cell.key ==> Saved(r.1, k) == Saved(storage, k)
  {
    (Cell(cell.key, v), Write(storage, cell.key, serialize(v), fits))
  }

  /** After a successful write, reloading the page restores the value, as
      long as the serialisation of that value is non-empty and parses back
      to it. */
  lemma ReloadAfterUpdate<T>(cell: Cell<T>, storage: Storage, v: T, default: T,
                             parse: string -> Option<T>, serialize: T -> string)
    requires storage.Available?
    requires serialize(v) != "" && parse(serialize(v)) == Some(v)
    ensures Load(Update(cell, storage, v, serialize, true).1, cell.key, default, parse) == v
  {
  }

  /** An update never changes what another key loads. */
  lemma UpdateIsolated<T, U>(cell: Cell<T>, storage: Storage, v: T, serialize: T -> string, fits: bool,
                             other: string, default: U, parse: string -> Option<U>)
    requires other != cell.key
    ensures Load(Update(cell, storage, v, serialize, fits).1, other, default, parse)
            == Load(storage, other, default, parse)
  {
    assert Saved(Update(cell, storage, v, serialize, fits).1, other) == Saved(storage, other);
  }

  /** Reloading after a mount whose write-back succeeded gives the same
      state again, when the loaded value's serialisation round-trips. */
  lemma MountStable<T>(storage: Storage, key: string, default: T, parse: string -> Option<T>,
                       serialize: T -> string)
    requires storage.Available?
    requires var v := Load(storage, key, default, parse);
             serialize(v) != "" && parse(serialize(v)) == Some(v)
    ensures var (c, s) := Mount(storage, key, default, parse, serialize, true);
            Mount(s, key, default, parse, serialize, true).0 == c
  {
  }
}

=== FILE: projects.dfy ===
/** The projects section: like experience, with a tech list and an image.
    The image field is an opaque string: a typed URL arrives as a field
    update, the data URL of an uploaded file through `FileLoaded`. */
module ProjectsSection {
  import Text
  import E = Editor

  datatype Project = Project(id: string, title: string, date: string, description: string,
                             features: seq<string>, tech: seq<string>, liveLink: string,
                             githubLink: string, image: string)

  type Section = E.Editor<Project, Project>

  const Key: string := "ast_proj_data"

  const Blank: Project := Project("", "", "", "", [], [], "", "", "")

  const Defaults: seq<Project> := [
    Project("1", "Basti The Food Street", "Nov 2025 \U{2013} Jan 2026",
            "A flagship NUST project: A high-fidelity, responsive restaurant application with an interactive interface and full reservation system.",
            ["Dynamic Menu Explorer", "Cloud Reservation System", "Interactive UX Elements"],
            ["React.js", "JavaScript", "Tailwind CSS", "Node.js"],
            "https://basti-the-food-street.vercel.app/",
            "https://github.com/abdussamietahir2006-stack/basti-the-food-street",
            "https://images.unsplash.com/photo-1517248135467-4c7edcad34c4?q=80&w=2070&auto=format&fit=crop")
  ]

  /** One change event of a form field. `Image` is the URL input. The form
      has no field for `features`. */
  datatype Input = Image(text: string) | Title(text: string) | Date(text: string)
                 | Description(text: string) | Tech(text: string)
                 | LiveLink(text: string) | GithubLink(text: string)

  /** A form field's change handler; the tech input uses the unfiltered
      comma parse. */
  function Apply(form: Project, input: Input): (r: Project)
    ensures r.id == form.id && r.features == form.features
    ensures input.Tech? ==> |r.tech| == Text.Occurrences(input.text, ',') + 1
    ensures !input.Tech? ==> r.tech == form.tech
  {
    match input
    case Image(t) => form.(image := t)
    case Title(t) => form.(title := t)
    case Date(t) => form.(date := t)
    case Description(t) => form.(description := t)
    case Tech(t) => form.(tech := Text.ParseList(t))
    case LiveLink(t) => form.(liveLink := t)
    case GithubLink(t) => form.(githubLink := t)
  }

  /** The form after a run of change events. */
  function ApplyAll(form: Project, inputs: seq<Input>): Project
  {
    E.TypeAll(form, inputs, Apply)
  }

  /** No run of change events alters the id or the features. */
  lemma TypingKeepsId(form: Project, inputs: seq<Input>)
    ensures ApplyAll(form, inputs).id == form.id
    ensures ApplyAll(form, inputs).features == form.features
  {
    E.TypingKeeps(form, inputs, Apply, (x: Project) => x.id);
    E.TypingKeeps(form, inputs, Apply, (x: Project) => x.features);
  }

  function WithId(x: Project, id: string): Project
  {
    x.(id := id)
  }

  function OpenAdd(e: Section): Section
  {
    E.OpenAdd(e, Blank)
  }

  function OpenEdit(e: Section, i: nat): Section
    requires i < |e.items|
  {
    E.OpenEdit(e, i, e.items[i])
  }

  function Type(e: Section, inputs: seq<Input>): Section
  {
    e.(form := ApplyAll(e.form, inputs))
  }

  function Save(e: Section, stamp: string): E.Outcome<Section, Project>
    requires e.open
  {
    E.Save(e, stamp, WithId)
  }

  /** Adding: exactly one record more, at the end, with the save's timestamp
      id and no features; the earlier records are untouched. */
  lemma AddSession(e: Section, inputs: seq<Input>, stamp: string)
    ensures var r := Save(Type(OpenAdd(e), inputs), stamp);
            && r.Next?
            && |r.state.items| == |e.items| + 1
            && r.state.items[..|e.items|] == e.items
            && r.state.items[|e.items|].id == stamp
            && r.state.items[|e.items|].features == []
  {
    TypingKeepsId(Blank, inputs);
  }

  /** Editing position `i`: only position `i` changes, and it keeps its id
      and its features whatever was typed. */
  lemma EditSession(e: Section, i: nat, inputs: seq<Input>, stamp: string)
    requires i < |e.items|
    ensures var r := Save(Type(OpenEdit(e, i), inputs), stamp);
            && r.Next?
            && |r.state.items| == |e.items|
            && r.state.items[i].id == e.items[i].id
            && r.state.items[i].features == e.items[i].features
            && forall j :: 0 <= j < |e.items| && j != i ==> r.state.items[j] == e.items[j]
  {
    TypingKeepsId(e.items[i], inputs);
  }

  /** Opening a project and saving it without typing leaves the list as it
      was: the edit form is the record itself. */
  lemma EditWithoutTyping(e: Section, i: nat, stamp: string)
    requires i < |e.items|
    ensures var r := Save(OpenEdit(e, i), stamp);
            r.Next? && r.state.items == e.items
  {
  }

  /** The file reader's completion: the form captured when the file was
      chosen (`chosen`), with the data URL as its image, replaces the
      current form. */
  function FileLoaded(e: Section, chosen: Project, dataUrl: string): (r: Section)
    ensures r.items == e.items && r.open == e.open && r.editing == e.editing
    ensures r.form.image == dataUrl
    ensures r.form.(image := chosen.image) == chosen
  {
    e.(form := chosen.(image := dataUrl))
  }

  /** With no typing while the file loads, an upload is the same as typing
      its data URL into the image field. */
  lemma UploadAsImageInput(e: Section, dataUrl: string)
    ensures FileLoaded(e, e.form, dataUrl) == Type(e, [Image(dataUrl)])
  {
    E.TypeAllOne(e.form, Image(dataUrl), Apply);
  }

  /** A title typed while the file loads is lost when the upload completes:
      the form goes back to the title it had when the file was chosen. */
  lemma UploadDropsTyping(e: Section, title: string, dataUrl: string)
    ensures var typed := Type(e, [Title(title)]);
            && typed.form.title == title
            && FileLoaded(typed, e.form, dataUrl).form.title == e.form.title
  {
    E.TypeAllOne(e.form, Title(title), Apply);
  }
}

=== FILE: scenarios.dfy ===
/** Concrete runs over the sections' default records. */
module Scenarios {
  import opened Wrappers
  import Lists
  import E = Editor
  import P = ProjectsSection
  import Ed = EducationSection
  import X = ExperienceSection
  import S = SkillsSection
  import Persisted

  /** Adding a project titled "Demo" to the default list gives two records,
      the default first and unchanged; deleting position 0 afterwards leaves
      only "Demo". */
  lemma ProjectsAddThenDelete(stamp: string)
    ensures var start := E.Start(P.Defaults, P.Blank);
            var added := P.Save(P.Type(P.OpenAdd(start), [P.Title("Demo")]), stamp);
            && added.Next?
            && |added.state.items| == 2
            && added.state.items[0] == P.Defaults[0]
            && added.state.items[1].title == "Demo"
            && |E.Delete(added.state, 0).items| == 1
            && E.Delete(added.state, 0).items[0].title == "Demo"
  {
    var start := E.Start(P.Defaults, P.Blank);
    var added := P.Save(P.Type(P.OpenAdd(start), [P.Title("Demo")]), stamp);
    assert added.state.items[1] == P.ApplyAll(P.Blank, [P.Title("Demo")]).(id := stamp);
    assert added.state.items[1].title == "Demo";
    assert E.Delete(added.state, 0).items == added.state.items[1..];
  }

  /** Confirming the deletion of position 1 of the default education list
      leaves only the bachelor's degree; cancelling leaves both entries. */
  lemma EducationConfirmOrCancel()
    ensures var s := Ed.Start(Ed.Defaults);
            var asked := Ed.Step(s, Ed.AskDelete(1)).state;
            && Ed.Step(asked, Ed.Confirm).state.editor.items == [Ed.Defaults[0]]
            && Ed.Step(asked, Ed.Cancel).state.editor.items == Ed.Defaults
  {
    var s := Ed.Start(Ed.Defaults);
    var asked := Ed.Step(s, Ed.AskDelete(1)).state;
    assert Ed.Step(asked, Ed.Confirm).state.editor.items == Lists.RemoveAt(Ed.Defaults, 1);
  }

  /** With the keyboard, the delete button of the card being edited stays
      reachable under the modal. Editing the first default education entry,
      deleting it and then saving writes the edit form over the entry that
      moved into its place: the bachelor's degree comes back and the
      intermediate entry is lost. */
  lemma KeyboardDeleteDuringEdit(stamp: string)
    ensures var shown := Ed.Step(Ed.Start(Ed.Defaults), Ed.OpenEdit(0)).state;
            var asked := Ed.Step(shown, Ed.AskDelete(0)).state;
            var gone := Ed.Step(asked, Ed.Confirm).state;
            var r := Ed.Step(gone, Ed.Save(stamp));
            && |gone.editor.items| == 1 && gone.editor.items[0] == Ed.Defaults[1]
            && r == E.Next(gone.(editor := gone.editor.(items := [Ed.EditCopy(Ed.Defaults[0])], open := false)))
  {
    var shown := Ed.Step(Ed.Start(Ed.Defaults), Ed.OpenEdit(0)).state;
    var asked := Ed.Step(shown, Ed.AskDelete(0)).state;
    var gone := Ed.Step(asked, Ed.Confirm).state;
    assert gone.editor.items == Lists.RemoveAt(Ed.Defaults, 0);
    assert gone.editor.editing == Some(0) && gone.editor.form == Ed.EditCopy(Ed.Defaults[0]);
    assert Lists.ReplaceAt(gone.editor.items, 0, gone.editor.form) == [Ed.EditCopy(Ed.Defaults[0])];
  }

  /** Editing the second default entry and deleting both entries from the
      keyboard leaves the edit at position 1 of an empty list: the save
      assigns past the end, which leaves a hole at position 0. */
  lemma KeyboardSparseSave(stamp: string)
    ensures var shown := Ed.Step(Ed.Start(Ed.Defaults), Ed.OpenEdit(1)).state;
            var once := Ed.Step(Ed.Step(shown, Ed.AskDelete(0)).state, Ed.Confirm).state;
            var twice := Ed.Step(Ed.Step(once, Ed.AskDelete(0)).state, Ed.Confirm).state;
            && twice.editor.items == []
            && Ed.Step(twice, Ed.Save(stamp)) == E.Sparse([], 1, Ed.EditCopy(Ed.Defaults[1]))
  {
    var shown := Ed.Step(Ed.Start(Ed.Defaults), Ed.OpenEdit(1)).state;
    var once := Ed.Step(Ed.Step(shown, Ed.AskDelete(0)).state, Ed.Confirm).state;
    assert once.editor.items == Lists.RemoveAt(Ed.Defaults, 0);
    var twice := Ed.Step(Ed.Step(once, Ed.AskDelete(0)).state, Ed.Confirm).state;
    assert twice.editor.items == Lists.RemoveAt(once.editor.items, 0);
  }

  /** A stored payload that does not parse loads each section's defaults,
      and so does storage that throws. */
  lemma CorruptPayloadLoadsDefaults(px: string -> Option<seq<X.Experience>>,
                                    pd: string -> Option<seq<Ed.Education>>,
                                    pp: string -> Option<seq<P.Project>>,
                                    ps: string -> Option<seq<S.SkillGroup>>)
    requires px("{corrupt").None? && pd("{corrupt").None? && pp("{corrupt").None? && ps("{corrupt").None?
    ensures var st := Persisted.Available(map[X.Key := "{corrupt", Ed.Key := "{corrupt",
                                              P.Key := "{corrupt", S.Key := "{corrupt"]);
            && Persisted.Load(st, X.Key, X.Defaults, px) == X.Defaults
            && Persisted.Load(st, Ed.Key, Ed.Defaults, pd) == Ed.Defaults
            && Persisted.Load(st, P.Key, P.Defaults, pp) == P.Defaults
            && Persisted.Load(st, S.Key, S.Defaults, ps) == S.Defaults
    ensures && Persisted.Load(Persisted.Unavailable, X.Key, X.Defaults, px) == X.Defaults
            && Persisted.Load(Persisted.Unavailable, Ed.Key, Ed.Defaults, pd) == Ed.Defaults
            && Persisted.Load(Persisted.Unavailable, P.Key, P.Defaults, pp) == P.Defaults
            && Persisted.Load(Persisted.Unavailable, S.Key, S.Defaults, ps) == S.Defaults
  {
  }

  /** The four sections use four different keys, so saving the experience
      list never changes what the other sections load. */
  lemma ExperienceWriteKeepsOthers(cell: Persisted.Cell<seq<X.Experience>>, st: Persisted.Storage,
                                   v: seq<X.Experience>, ser: seq<X.Experience> -> string, fits: bool,
                                   pd: string -> Option<seq<Ed.Education>>,
                                   pp: string -> Option<seq<P.Project>>,
                                   ps: string -> Option<seq<S.SkillGroup>>)
    requires cell.key == X.Key
    ensures var st' := Persisted.Update(cell, st, v, ser, fits).1;
            && Persisted.Load(st', Ed.Key, Ed.Defaults, pd) == Persisted.Load(st, Ed.Key, Ed.Defaults, pd)
            && Persisted.Load(st', P.Key, P.Defaults, pp) == Persisted.Load(st, P.Key, P.Defaults, pp)
            && Persisted.Load(st', S.Key, S.Defaults, ps) == Persisted.Load(st, S.Key, S.Defaults, ps)
  {
    Persisted.UpdateIsolated(cell, st, v, ser, fits, Ed.Key, Ed.Defaults, pd);
    Persisted.UpdateIsolated(cell, st, v, ser, fits, P.Key, P.Defaults, pp);
    Persisted.UpdateIsolated(cell, st, v, ser, fits, S.Key, S.Defaults, ps);
  }
}

=== FILE: skills.dfy ===
/** The skills section. Unlike the others, its form holds the title and the
    raw skills text; saving rebuilds the record, copying the id of the edited
    record or taking a fresh timestamp. */
module SkillsSection {
  import opened Wrappers
  import Text
  import Lists
  import E = Editor

  datatype SkillGroup = SkillGroup(id: string, title: string, skills: seq<string>)

  datatype SkillForm = SkillForm(title: string, skills: string)

  type Section = E.Editor<SkillGroup, SkillForm>

  const Key: string := "ast_skills_data"

  const BlankForm: SkillForm := SkillForm("", "")

  const Defaults: seq<SkillGroup> := [
    SkillGroup("1", "Programming", ["JavaScript", "React.js", "Java", "HTML", "CSS"]),
    SkillGroup("2", "Design", ["UI/UX Design", "Responsive Design", "Tailwind CSS"]),
    SkillGroup("3", "HR & Operations", ["Recruitment", "Onboarding", "Engagement"])
  ]

  datatype Input = Title(text: string) | Skills(text: string)

  function Apply(form: SkillForm, input: Input): SkillForm
  {
    match input
    case Title(t) => form.(title := t)
    case Skills(t) => form.(skills := t)
  }

  function OpenAdd(e: Section): Section
  {
    E.OpenAdd(e, BlankForm)
  }

  /** The form shows the group's title and its skills joined with ", ". */
  function OpenEdit(e: Section, i: nat): (r: Section)
    requires i < |e.items|
    ensures r.items == e.items && r.open && r.editing == Some(i)
    ensures r.form.title == e.items[i].title
    ensures |e.items[i].skills| >= 1 && (forall k :: 0 <= k < |e.items[i].skills| ==> Text.NoComma(e.items[i].skills[k])) ==>
              Text.Occurrences(r.form.skills, ',') == |e.items[i].skills| - 1
    ensures e.items[i].skills == [] ==> r.form.skills == ""
  {
    E.OpenEdit(e, i, SkillForm(e.items[i].title, Text.Join(e.items[i].skills)))
  }

  function Type(e: Section, input: Input): Section
  {
    e.(form := Apply(e.form, input))
  }

  /** A group whose skills survive being shown and parsed back: each one
      non-empty, trimmed and free of commas. */
  predicate Clean(g: SkillGroup)
  {
    forall k :: 0 <= k < |g.skills| ==>
      g.skills[k] != "" && Text.IsTrimmed(g.skills[k]) && Text.NoComma(g.skills[k])
  }

  /** The record the save button builds from the form. When the remembered
      position lies outside the list (left stale by a card deleted from the
      keyboard), `skillGroups[editingIdx].id` throws and nothing is built. */
  function Build(e: Section, stamp: string): (g: Option<SkillGroup>)
    ensures g.None? <==> e.editing.Some? && e.editing.value >= |e.items|
    ensures g.Some? ==> g.value.id == (if e.editing.Some? then e.items[e.editing.value].id else stamp)
    ensures g.Some? ==> g.value.title == e.form.title
    ensures g.Some? ==> Clean(g.value)
  {
    match e.editing
    case Some(i) =>
      if i < |e.items| then Some(SkillGroup(e.items[i].id, e.form.title, Text.ParseNonEmptyList(e.form.skills)))
      else None
    case None => Some(SkillGroup(stamp, e.form.title, Text.ParseNonEmptyList(e.form.skills)))
  }

  /** The save button: the built group is appended when adding and written
      over the remembered position when editing, and the modal closes. When
      the build throws, the handler stops before any state update. */
  function Save(e: Section, stamp: string): (r: Section)
    requires e.open
    ensures e.editing.Some? && e.editing.value >= |e.items| ==> r == e
    ensures e.editing.None? ==>
              !r.open && E.Valid(r) && r.items == Lists.Append(e.items, Build(e, stamp).value)
    ensures e.editing.Some? && e.editing.value < |e.items| ==>
              !r.open && E.Valid(r) && r.items == Lists.ReplaceAt(e.items, e.editing.value, Build(e, stamp).value)
  {
    var g := Build(e, stamp);
    if g.None? then e else E.Commit(e, g.value).state
  }

  /** Every group a save produces is clean, so the invariant "all groups
      are clean" holds once the defaults are replaced or kept. */
  lemma SaveKeepsClean(e: Section, stamp: string)
    requires e.open
    requires forall j :: 0 <= j < |e.items| ==> Clean(e.items[j])
    ensures var r := Save(e, stamp);
            forall j :: 0 <= j < |r.items| ==> Clean(r.items[j])
  {
  }

  /** Saving an edit: the length is kept, only the edited position changes,
      and it keeps its id, whatever was typed. */
  lemma EditKeepsId(e: Section, stamp: string)
    requires e.open && e.editing.Some? && e.editing.value < |e.items|
    ensures var r := Save(e, stamp);
            var i := e.editing.value;
            && |r.items| == |e.items|
            && r.items[i].id == e.items[i].id
            && forall j :: 0 <= j < |e.items| && j != i ==> r.items[j] == e.items[j]
  {
  }

  /** Saving an add: one more group, at the end, with the timestamp id. */
  lemma AddAppends(e: Section, stamp: string)
    requires e.open && e.editing.None?
    ensures var r := Save(e, stamp);
            && |r.items| == |e.items| + 1
            && r.items[..|e.items|] == e.items
            && r.items[|e.items|].id == stamp
  {
  }

  /** A save whose remembered position was left past the end by a keyboard
      delete changes nothing: the modal stays open with the typed form. */
  lemma StaleSaveThrows(e: Section, stamp: string)
    requires e.open && e.editing.Some? && e.editing.value >= |e.items|
    ensures Save(e, stamp) == e
  {
  }

  /** Opening a group for editing and saving it untouched gives back the
      same records exactly when the group is clean. */
  lemma EditWithoutTyping(e: Section, i: nat, stamp: string)
    requires i < |e.items|
    ensures Save(OpenEdit(e, i), stamp).items == e.items <==> Clean(e.items[i])
  {
    var g := e.items[i];
    if Clean(g) {
      Text.ParseNonEmptyListOfJoin(g.skills);
      assert Build(OpenEdit(e, i), stamp) == Some(g);
    } else {
      assert Save(OpenEdit(e, i), stamp).items[i] != g;
    }
  }
}

=== FILE: text.dfy ===
/** The comma-separated text fields of the editor forms.

    A form shows a list field as its elements joined with ", " and turns the
    edited text back into a list with `split(',')` followed by `trim()` of
    every piece; some fields then drop the empty pieces (`filter(Boolean)`).
    This module models those string operations on `seq<char>`. */
module Text {

  /** The code points JavaScript's `String.prototype.trim` removes: the
      WhiteSpace and LineTerminator productions of ECMA-262 (section 12.2 and
      12.3 of the 2023 edition), including every space separator of category Zs. */
  predicate IsSpace(c: char)
  {
    || c == '\t' || c == '\n' || c == '\U{0B}' || c == '\U{0C}' || c == '\r'
    || c == ' ' || c == '\U{A0}' || c == '\U{1680}'
    || ('\U{2000}' <= c <= '\U{200A}')
    || c == '\U{2028}' || c == '\U{2029}' || c == '\U{202F}' || c == '\U{205F}'
    || c == '\U{3000}' || c == '\U{FEFF}'
  }

  predicate AllSpace(s: string)
  {
    forall k :: 0 <= k < |s| ==> IsSpace(s[k])
  }

  /** Neither end of `s` is a space: what `trim` leaves behind. */
  predicate IsTrimmed(s: string)
  {
    s == [] || (!IsSpace(s[0]) && !IsSpace(s[|s| - 1]))
  }

  predicate NoComma(s: string)
  {
    forall k :: 0 <= k < |s| ==> s[k] != ','
  }

  /** Number of occurrences of `c` in `s`. */
  function Occurrences(s: string, c: char): nat
  {
    if s == [] then 0 else (if s[0] == c then 1 else 0) + Occurrences(s[1..], c)
  }

  // ----- trim -----

  /** Removes leading spaces. */
  function TrimStart(s: string): (r: string)
    ensures |r| <= |s|
    ensures r == [] || !IsSpace(r[0])
  {
    if s != [] && IsSpace(s[0]) then TrimStart(s[1..]) else s
  }

  /** Removes trailing spaces. */
  function TrimEnd(s: string): (r: string)
    ensures |r| <= |s|
    ensures r == [] || !IsSpace(r[|r| - 1])
  {
    if s != [] && IsSpace(s[|s| - 1]) then TrimEnd(s[..|s| - 1]) else s
  }

  lemma {:induction false} TrimStartIsSuffix(s: string)
    ensures TrimStart(s) == s[|s| - |TrimStart(s)|..]
    ensures AllSpace(s[..|s| - |TrimStart(s)|])
    decreases |s|
  {
    if s != [] && IsSpace(s[0]) {
      TrimStartIsSuffix(s[1..]);
      var n := |s| - |TrimStart(s)|;
      assert s[1..][n - 1..] == s[n..];
      forall k | 0 <= k < n ensures IsSpace(s[k]) {
        if k > 0 { assert s[k] == s[1..][..n - 1][k - 1]; }
      }
    }
  }

  lemma {:induction false} TrimEndIsPrefix(s: string)
    ensures TrimEnd(s) == s[..|TrimEnd(s)|]
    ensures AllSpace(s[|TrimEnd(s)|..])
    decreases |s|
  {
    if s != [] && IsSpace(s[|s| - 1]) {
      var p := s[..|s| - 1];
      TrimEndIsPrefix(p);
      var n := |TrimEnd(s)|;
      assert p[..n] == s[..n];
      forall k | n <= k < |s| ensures IsSpace(s[k]) {
        if k < |s| - 1 { assert s[k] == p[n..][k - n]; }
      }
    }
  }

  /** How many spaces `trim` cuts from the front of `s`. */
  function Lead(s: string): nat
  {
    |s| - |TrimStart(s)|
  }

  /** `String.prototype.trim`; `TrimIsSlice` states what it cuts. */
  function Trim(s: string): (r: string)
    ensures IsTrimmed(r)
  {
    var t := TrimStart(s);
    TrimEndIsPrefix(t);
    TrimEnd(t)
  }

  /** `trim` returns a slice of `s`, and everything it cuts off on either
      side is space. */
  lemma TrimIsSlice(s: string)
    ensures Lead(s) + |Trim(s)| <= |s|
    ensures Trim(s) == s[Lead(s)..Lead(s) + |Trim(s)|]
    ensures AllSpace(s[..Lead(s)]) && AllSpace(s[Lead(s) + |Trim(s)|..])
  {
    var t := TrimStart(s);
    var r := TrimEnd(t);
    TrimStartIsSuffix(s);
    TrimEndIsPrefix(t);
    var a := |s| - |t|;
    assert r == s[a..a + |r|];
    assert s[a + |r|..] == t[|r|..];
  }

  // ----- split and join -----

  /** `s.split(',')`: the pieces between commas, in order. There is always
      one more piece than there are commas, so "" splits into [""]. */
  function Split(s: string): (r: seq<string>)
    ensures |r| == Occurrences(s, ',') + 1
    ensures forall k :: 0 <= k < |r| ==> NoComma(r[k])
    ensures JoinWith(r, ",") == s
  {
    if s == [] then [[]]
    else
      var rest := Split(s[1..]);
      if s[0] == ',' then
        assert [s[0]] + s[1..] == s;
        [[]] + rest
      else
        var r := [[s[0]] + rest[0]] + rest[1..];
        assert JoinWith(r, ",") == [s[0]] + JoinWith(rest, ",") by {
          if |rest| > 1 {
            assert r[1..] == rest[1..];
          }
        }
        assert [s[0]] + s[1..] == s;
        r
  }

  /** `xs.join(sep)`; the empty list joins to "". `JoinWithCommas` counts
      the commas of a join. */
  function JoinWith(xs: seq<string>, sep: string): string
  {
    if |xs| == 0 then []
    else if |xs| == 1 then xs[0]
    else xs[0] + sep + JoinWith(xs[1..], sep)
  }

  /** How a form displays a list field: the elements separated by ", ". A
      list of n >= 1 comma-free elements shows exactly n - 1 commas, so
      `split(',')` cuts it back into n pieces. */
  function Join(xs: seq<string>): (r: string)
    ensures xs == [] ==> r == ""
    ensures |xs| >= 1 && (forall k :: 0 <= k < |xs| ==> NoComma(xs[k])) ==>
              Occurrences(r, ',') == |xs| - 1
  {
    assert Occurrences(", ", ',') == 1;
    JoinWithCommas(xs, ", ");
    JoinWith(xs, ", ")
  }

  /** Between comma-free elements, the only commas of a join are those of
      the n - 1 separators. */
  lemma {:induction false} JoinWithCommas(xs: seq<string>, sep: string)
    ensures |xs| >= 1 && (forall k :: 0 <= k < |xs| ==> NoComma(xs[k])) ==>
              Occurrences(JoinWith(xs, sep), ',') == (|xs| - 1) * Occurrences(sep, ',')
    decreases |xs|
  {
    if |xs| == 1 {
      NoCommaCount(xs[0]);
    } else if |xs| > 1 {
      var rest := JoinWith(xs[1..], sep);
      var m := Occurrences(sep, ',');
      assert JoinWith(xs, sep) == xs[0] + sep + rest;
      if forall k :: 0 <= k < |xs| ==> NoComma(xs[k]) {
        assert forall k :: 0 <= k < |xs[1..]| ==> NoComma(xs[1..][k]) by {
          assert forall k :: 0 <= k < |xs[1..]| ==> xs[1..][k] == xs[k + 1];
        }
        JoinWithCommas(xs[1..], sep);
        assert Occurrences(rest, ',') == (|xs| - 2) * m;
        NoCommaCount(xs[0]);
        OccurrencesAppend(xs[0], sep, ',');
        OccurrencesAppend(xs[0] + sep, rest, ',');
        assert Occurrences(JoinWith(xs, sep), ',') == m + (|xs| - 2) * m;
        MulStep(|xs| - 1, m);
      }
    }
  }

  lemma MulStep(n: int, m: int)
    ensures n * m == m + (n - 1) * m
  {
  }

  lemma {:induction false} OccurrencesAppend(a: string, b: string, c: char)
    ensures Occurrences(a + b, c) == Occurrences(a, c) + Occurrences(b, c)
    decreases |a|
  {
    if a == [] {
      assert a + b == b;
    } else {
      OccurrencesAppend(a[1..], b, c);
      assert (a + b)[1..] == a[1..] + b;
    }
  }

  lemma {:induction false} NoCommaCount(s: string)
    ensures NoComma(s) <==> Occurrences(s, ',') == 0
    decreases |s|
  {
    if s != [] {
      NoCommaCount(s[1..]);
      assert NoComma(s) <==> s[0] != ',' && NoComma(s[1..]) by {
        assert forall k :: 1 <= k < |s| ==> s[k] == s[1..][k - 1];
      }
    }
  }

  // ----- the two parses -----

  /** `map(s => s.trim())`. */
  function TrimAll(xs: seq<string>): (r: seq<string>)
    ensures |r| == |xs|
    ensures forall k :: 0 <= k < |xs| ==> r[k] == Trim(xs[k])
  {
    seq(|xs|, k requires 0 <= k < |xs| => Trim(xs[k]))
  }

  /** Keeps the non-empty strings of `xs`, in order (`filter(Boolean)`). */
  function DropEmpty(xs: seq<string>): (r: seq<string>)
    ensures forall k :: 0 <= k < |r| ==> r[k] != [] && r[k] in xs
    ensures r == [] <==> forall k :: 0 <= k < |xs| ==> xs[k] == []
    ensures (forall k :: 0 <= k < |xs| ==> xs[k] != []) ==> r == xs
  {
    if xs == [] then []
    else
      var rest := DropEmpty(xs[1..]);
      assert forall k :: 1 <= k < |xs| ==> xs[k] == xs[1..][k - 1];
      if xs[0] == [] then rest else [xs[0]] + rest
  }

  /** `text.split(',').map(s => s.trim())`, the parse of the experience
      details and project tech fields. */
  function ParseList(text: string): (r: seq<string>)
    ensures |r| == Occurrences(text, ',') + 1
    ensures forall k :: 0 <= k < |r| ==> IsTrimmed(r[k]) && NoComma(r[k])
    ensures text == "" ==> r == [""]
  {
    var pieces := Split(text);
    var r := TrimAll(pieces);
    forall k | 0 <= k < |r|
      ensures NoComma(r[k])
    {
      TrimKeepsNoComma(pieces[k]);
    }
    r
  }

  /** `text.split(',').map(s => s.trim()).filter(Boolean)`, the parse of the
      education activities and skill-group skills fields. */
  function ParseNonEmptyList(text: string): (r: seq<string>)
    ensures forall k :: 0 <= k < |r| ==> r[k] != [] && IsTrimmed(r[k]) && NoComma(r[k])
  {
    var all := ParseList(text);
    var r := DropEmpty(all);
    assert forall k :: 0 <= k < |r| ==> r[k] in all;
    r
  }

  // ----- lemmas about trim -----

  lemma TrimKeepsNoComma(s: string)
    requires NoComma(s)
    ensures NoComma(Trim(s))
  {
    var r := Trim(s);
    var a := Lead(s);
    TrimIsSlice(s);
    assert forall k :: 0 <= k < |r| ==> r[k] == s[a + k];
  }

  /** `trim` leaves a string unchanged exactly when it has no space at either end. */
  lemma TrimFixedPoint(s: string)
    ensures Trim(s) == s <==> IsTrimmed(s)
  {
  }

  /** One leading space (the one `join(', ')` puts after each comma) is
      absorbed by `trim`. */
  lemma TrimLeadingSpace(s: string)
    ensures Trim(" " + s) == Trim(s)
  {
    assert (" " + s)[1..] == s;
  }

  lemma {:induction false} TrimStartAllSpace(s: string)
    requires AllSpace(s)
    ensures TrimStart(s) == []
    decreases |s|
  {
    if s != [] {
      TrimStartAllSpace(s[1..]);
    }
  }

  lemma AllSpaceSplit(s: string, a: nat)
    requires a <= |s| && AllSpace(s[..a]) && AllSpace(s[a..])
    ensures AllSpace(s)
  {
    forall k | 0 <= k < |s| ensures IsSpace(s[k]) {
      if k < a { assert s[k] == s[..a][k]; } else { assert s[k] == s[a..][k - a]; }
    }
  }

  lemma AllSpaceCons(c: char, t: string)
    ensures AllSpace([c] + t) <==> IsSpace(c) && AllSpace(t)
  {
    var s := [c] + t;
    assert forall k :: 0 <= k < |t| ==> t[k] == s[k + 1];
    assert s[0] == c;
  }

  /** A piece trims to nothing exactly when it is all space. */
  lemma TrimEmpty(s: string)
    ensures Trim(s) == [] <==> AllSpace(s)
  {
    if AllSpace(s) {
      TrimStartAllSpace(s);
    } else if Trim(s) == [] {
      TrimIsSlice(s);
      AllSpaceSplit(s, Lead(s));
    }
  }

  // ----- lemmas about split, join and the parses -----

  /** A comma-free prefix is glued to the first piece. */
  lemma {:induction false} SplitPrefix(a: string, t: string)
    requires NoComma(a)
    ensures Split(a + t) == [a + Split(t)[0]] + Split(t)[1..]
    decreases |a|
  {
    var st := Split(t);
    if a == [] {
      assert a + t == t;
      assert a + st[0] == st[0];
      assert st == [st[0]] + st[1..];
    } else {
      var s := a + t;
      assert s[0] == a[0] && s[0] != ',';
      assert s[1..] == a[1..] + t;
      SplitPrefix(a[1..], t);
      var rest := Split(s[1..]);
      assert rest == [a[1..] + st[0]] + st[1..];
      assert Split(s) == [[s[0]] + rest[0]] + rest[1..];
      assert [a[0]] + (a[1..] + st[0]) == a + st[0];
    }
  }

  /** Splitting inverts joining with "," for comma-free pieces. */
  lemma {:induction false} SplitOfJoin(xs: seq<string>)
    requires |xs| >= 1
    requires forall k :: 0 <= k < |xs| ==> NoComma(xs[k])
    ensures Split(JoinWith(xs, ",")) == xs
    decreases |xs|
  {
    if |xs| == 1 {
      SplitPrefix(xs[0], "");
      assert xs[0] + "" == xs[0];
    } else {
      var rest := JoinWith(xs[1..], ",");
      SplitOfJoin(xs[1..]);
      assert xs[0] + "," + rest == xs[0] + ("," + rest);
      SplitPrefix(xs[0], "," + rest);
      assert ("," + rest)[1..] == rest;
      var sr := Split("," + rest);
      assert sr == [[]] + xs[1..];
      assert sr[0] == [] && sr[1..] == xs[1..];
      assert xs[0] + [] == xs[0];
      assert xs == [xs[0]] + xs[1..];
    }
  }

  lemma SplitComma(u: string)
    ensures Split("," + u) == [[]] + Split(u)
  {
    assert ("," + u)[1..] == u;
  }

  /** The pieces of `x + ", " + rest`: `x`, then the pieces of `rest` with a
      space in front of the first. */
  lemma SplitCons(x: string, rest: string)
    requires NoComma(x)
    ensures Split(x + ", " + rest) == [x] + ([" " + Split(rest)[0]] + Split(rest)[1..])
  {
    var u := " " + rest;
    SplitPrefix(" ", rest);
    var su := Split(u);
    assert su == [" " + Split(rest)[0]] + Split(rest)[1..];
    SplitComma(u);
    var sc := Split("," + u);
    assert sc[0] == [] && sc[1..] == su;
    SplitPrefix(x, "," + u);
    assert x + ", " + rest == x + ("," + u);
    assert x + sc[0] == x;
  }

  /** The parse of `x + ", " + rest` is `x` followed by the parse of `rest`. */
  lemma ParseListCons(x: string, rest: string)
    requires NoComma(x) && IsTrimmed(x)
    ensures ParseList(x + ", " + rest) == [x] + ParseList(rest)
  {
    var s := Split(rest);
    var pieces := [x] + ([" " + s[0]] + s[1..]);
    SplitCons(x, rest);
    TrimFixedPoint(x);
    TrimLeadingSpace(s[0]);
    var lhs := TrimAll(pieces);
    var rhs := [x] + TrimAll(s);
    assert |lhs| == |rhs|;
    forall k | 0 <= k < |lhs|
      ensures lhs[k] == rhs[k]
    {
      if k == 0 {
        assert lhs[0] == Trim(x) == x;
      } else if k == 1 {
        assert lhs[1] == Trim(" " + s[0]) == Trim(s[0]);
      } else {
        assert pieces[k] == s[k - 1];
      }
    }
    assert lhs == rhs;
  }

  /** Displaying a list of trimmed, comma-free strings and parsing the text
      back with the unfiltered parse gives the same list. The list must be
      non-empty: the empty list displays as "", which parses to [""]. */
  lemma {:induction false} ParseListOfJoin(xs: seq<string>)
    requires |xs| >= 1
    requires forall k :: 0 <= k < |xs| ==> IsTrimmed(xs[k]) && NoComma(xs[k])
    ensures ParseList(Join(xs)) == xs
    decreases |xs|
  {
    if |xs| == 1 {
      TrimFixedPoint(xs[0]);
      assert Split(xs[0]) == [xs[0]] by { SplitOfJoin(xs); }
    } else {
      ParseListOfJoin(xs[1..]);
      ParseListCons(xs[0], Join(xs[1..]));
      assert xs == [xs[0]] + xs[1..];
    }
  }

  /** Displaying a list of non-empty, trimmed, comma-free strings and parsing
      the text back with the filtered parse gives the same list, the empty
      list included. */
  lemma ParseNonEmptyListOfJoin(xs: seq<string>)
    requires forall k :: 0 <= k < |xs| ==> xs[k] != [] && IsTrimmed(xs[k]) && NoComma(xs[k])
    ensures ParseNonEmptyList(Join(xs)) == xs
  {
    if |xs| == 0 {
      assert ParseList("") == [""];
    } else {
      ParseListOfJoin(xs);
    }
  }

  /** Every character is a space or a comma. */
  predicate SpacesAndCommas(s: string)
  {
    forall k :: 0 <= k < |s| ==> IsSpace(s[k]) || s[k] == ','
  }

  lemma {:induction false} SplitAllSpace(s: string)
    ensures (forall k :: 0 <= k < |Split(s)| ==> AllSpace(Split(s)[k])) <==> SpacesAndCommas(s)
    decreases |s|
  {
    if s != [] {
      SplitAllSpace(s[1..]);
      var rest := Split(s[1..]);
      assert forall k :: 1 <= k < |s| ==> s[k] == s[1..][k - 1];
      if s[0] != ',' {
        var r := Split(s);
        assert r == [[s[0]] + rest[0]] + rest[1..];
        assert forall k :: 1 <= k < |rest| ==> rest[k] == r[k];
        assert r[0] == [s[0]] + rest[0];
        AllSpaceCons(s[0], rest[0]);
      } else {
        assert forall k :: 0 <= k < |rest| ==> rest[k] == Split(s)[k + 1];
      }
    }
  }

  /** The filtered parse yields no element exactly when the text holds
      nothing but spaces and commas; in particular "" and all-space text
      parse to the empty list. */
  lemma ParseNonEmptyListEmpty(text: string)
    ensures ParseNonEmptyList(text) == [] <==> SpacesAndCommas(text)
  {
    var pieces := Split(text);
    forall k | 0 <= k < |pieces|
      ensures ParseList(text)[k] == [] <==> AllSpace(pieces[k])
    {
      TrimEmpty(pieces[k]);
    }
    SplitAllSpace(text);
  }

  // ----- typing at the end of a comma field -----

  lemma {:induction false} JoinWithExtendLast(xs: seq<string>, sep: string, w: string)
    requires |xs| >= 1
    ensures JoinWith(xs[..|xs| - 1] + [xs[|xs| - 1] + w], sep) == JoinWith(xs, sep) + w
    decreases |xs|
  {
    var ys := xs[..|xs| - 1] + [xs[|xs| - 1] + w];
    if |xs| > 1 {
      var tail := xs[1..];
      JoinWithExtendLast(tail, sep, w);
      assert ys[1..] == tail[..|tail| - 1] + [tail[|tail| - 1] + w];
      assert ys[0] == xs[0];
    }
  }

  lemma {:induction false} JoinWithSnoc(xs: seq<string>, sep: string, y: string)
    requires |xs| >= 1
    ensures JoinWith(xs + [y], sep) == JoinWith(xs, sep) + sep + y
    decreases |xs|
  {
    if |xs| > 1 {
      JoinWithSnoc(xs[1..], sep, y);
      assert (xs + [y])[1..] == xs[1..] + [y];
    } else {
      assert (xs + [y])[1..] == [y];
    }
  }

  /** A typed character other than a comma extends the last piece; a typed
      comma opens a new, empty piece. */
  lemma SplitSnoc(t: string, c: char)
    ensures var s := Split(t);
            Split(t + [c]) == if c == ',' then s + [[]] else s[..|s| - 1] + [s[|s| - 1] + [c]]
  {
    if c == ',' {
      SplitSnocComma(t);
    } else {
      SplitSnocOther(t, c);
    }
  }

  lemma SplitSnocComma(t: string)
    ensures Split(t + [',']) == Split(t) + [[]]
  {
    var s := Split(t);
    JoinWithSnoc(s, ",", []);
    assert JoinWith(s + [[]], ",") == t + [','];
    SplitOfJoin(s + [[]]);
  }

  lemma SplitSnocOther(t: string, c: char)
    requires c != ','
    ensures var s := Split(t);
            Split(t + [c]) == s[..|s| - 1] + [s[|s| - 1] + [c]]
  {
    var s := Split(t);
    var last := s[|s| - 1];
    var s' := s[..|s| - 1] + [last + [c]];
    JoinWithExtendLast(s, ",", [c]);
    assert JoinWith(s', ",") == t + [c];
    assert NoComma(last + [c]) by {
      assert NoComma(last);
      var p := last + [c];
      assert forall k :: 0 <= k < |p| - 1 ==> p[k] == last[k];
    }
    assert forall k :: 0 <= k < |s'| ==> NoComma(s'[k]) by {
      forall k | 0 <= k < |s'|
        ensures NoComma(s'[k])
      {
        if k < |s'| - 1 {
          assert s'[k] == s[k];
        }
      }
    }
    SplitOfJoin(s');
  }

  lemma {:induction false} TrimStartAppend(p: string, w: string)
    ensures AllSpace(p) ==> TrimStart(p + w) == TrimStart(w)
    ensures !AllSpace(p) ==> TrimStart(p + w) == TrimStart(p) + w
    decreases |p|
  {
    if p == [] {
      assert p + w == w;
    } else {
      assert (p + w)[1..] == p[1..] + w;
      AllSpaceCons(p[0], p[1..]);
      assert [p[0]] + p[1..] == p;
      TrimStartAppend(p[1..], w);
    }
  }

  /** A space typed after a piece disappears when the piece is trimmed. */
  lemma TrimTrailingSpace(p: string)
    ensures Trim(p + " ") == Trim(p)
  {
    TrimStartAppend(p, " ");
    if AllSpace(p) {
      TrimStartAllSpace(p);
    } else {
      var q := TrimStart(p);
      assert (q + " ")[..|q|] == q;
    }
  }

  /** `filter(Boolean)` on a single element keeps it exactly when it is
      non-empty. */
  lemma DropEmptySingle(x: string)
    ensures DropEmpty([x]) == (if x == [] then [] else [x])
  {
    assert [x][1..] == [];
  }

  /** The same filter without a contract, so that proofs by induction over
      it do not carry `DropEmpty`'s postconditions along. */
  function KeepNonEmpty(xs: seq<string>): seq<string>
  {
    if xs == [] then [] else (if xs[0] == [] then [] else [xs[0]]) + KeepNonEmpty(xs[1..])
  }

  lemma {:induction false} DropEmptyIsKeep(xs: seq<string>)
    ensures DropEmpty(xs) == KeepNonEmpty(xs)
    decreases |xs|
  {
    if xs != [] {
      DropEmptyIsKeep(xs[1..]);
    }
  }

  lemma {:induction false} KeepNonEmptyAppend(xs: seq<string>, ys: seq<string>)
    ensures KeepNonEmpty(xs + ys) == KeepNonEmpty(xs) + KeepNonEmpty(ys)
    decreases |xs|
  {
    if xs == [] {
      assert xs + ys == ys;
    } else {
      var h := if xs[0] == [] then [] else [xs[0]];
      var a, b := KeepNonEmpty(xs[1..]), KeepNonEmpty(ys);
      assert (xs + ys)[0] == xs[0] && (xs + ys)[1..] == xs[1..] + ys;
      assert KeepNonEmpty(xs + ys) == h + KeepNonEmpty(xs[1..] + ys);
      KeepNonEmptyAppend(xs[1..], ys);
      assert h + (a + b) == (h + a) + b;
    }
  }

  /** The filter distributes over concatenation. With `DropEmptySingle` this
      fixes the result completely: the non-empty elements, in their order,
      each as often as it occurs. */
  lemma DropEmptyAppend(xs: seq<string>, ys: seq<string>)
    ensures DropEmpty(xs + ys) == DropEmpty(xs) + DropEmpty(ys)
  {
    KeepNonEmptyAppend(xs, ys);
    DropEmptyIsKeep(xs + ys);
    DropEmptyIsKeep(xs);
    DropEmptyIsKeep(ys);
  }

  /** An empty piece between two words: the unfiltered parse keeps it as
      "", the filtered parse drops it and keeps the words in their order. */
  lemma EmptyPieceDropped(a: string, b: string)
    requires a != [] && IsTrimmed(a) && NoComma(a)
    requires b != [] && IsTrimmed(b) && NoComma(b)
    ensures ParseList(a + ",," + b) == [a, "", b]
    ensures ParseNonEmptyList(a + ",," + b) == [a, b]
  {
    var xs: seq<string> := [a, "", b];
    assert Split(a + ",," + b) == xs by {
      assert JoinWith(xs[2..], ",") == b;
      assert JoinWith(xs[1..], ",") == "" + "," + b;
      assert JoinWith(xs, ",") == a + "," + ("" + "," + b) == a + ",," + b;
      assert NoComma(xs[1]);
      SplitOfJoin(xs);
    }
    TrimFixedPoint(a);
    TrimFixedPoint(b);
    TrimFixedPoint("");
    var p := ParseList(a + ",," + b);
    assert p == xs;
    assert ParseNonEmptyList(a + ",," + b) == DropEmpty(xs);
    DropEmptyIsKeep(xs);
    assert KeepNonEmpty(xs[2..]) == [b] by {
      assert xs[2..][1..] == [];
    }
    assert KeepNonEmpty(xs[1..]) == [b] by {
      assert xs[1..][1..] == xs[2..];
    }
    assert KeepNonEmpty(xs) == [a] + [b];
  }

  /** The filtered parse of "a,,b" is ["a", "b"]. */
  lemma DropEmptyExample()
    ensures ParseNonEmptyList("a,,b") == ["a", "b"]
  {
    assert "a,,b" == "a" + ",," + "b";
    EmptyPieceDropped("a", "b");
  }

  /** The experience details, education activities and project tech fields
      show the parse of what was typed, joined again. Typing a space at the
      end of one of them therefore changes nothing: the parse of the longer
      text is the same list, so the space is not shown. (The skills field
      shows its raw text and parses only on save.) */
  lemma TypedTrailingSpaceDropped(t: string)
    ensures ParseList(t + " ") == ParseList(t)
    ensures ParseNonEmptyList(t + " ") == ParseNonEmptyList(t)
  {
    var s := Split(t);
    var n := |s| - 1;
    var s' := s[..n] + [s[n] + " "];
    SplitSnoc(t, ' ');
    assert Split(t + " ") == s';
    TrimTrailingSpace(s[n]);
    var a, b := TrimAll(s'), TrimAll(s);
    forall k | 0 <= k < |a| ensures a[k] == b[k] {
      if k < n { assert s'[k] == s[k]; }
    }
    assert a == b;
    assert ParseList(t + " ") == a;
    assert ParseList(t) == b;
  }

  /** Typing a comma at the end of an unfiltered field adds an empty
      element; in the activities field the filter removes it again, so the
      comma is not shown. */
  lemma TypedTrailingComma(t: string)
    ensures ParseList(t + ",") == ParseList(t) + [""]
    ensures ParseNonEmptyList(t + ",") == ParseNonEmptyList(t)
  {
    var s := Split(t);
    SplitSnoc(t, ',');
    var a, b := ParseList(t + ","), ParseList(t) + [""];
    assert |a| == |b|;
    forall k | 0 <= k < |a| ensures a[k] == b[k] {
      if k == |a| - 1 {
        assert Trim([]) == [];
      }
    }
    DropEmptyAppend(ParseList(t), [[]]);
  }
}

=== FILE: wrappers.dfy ===
/** The optional-value datatype used for JavaScript's `null` / `undefined`
    and for partial operations such as parsing a stored payload. */
module Wrappers {

  datatype Option<+T> = None | Some(value: T) {

    /** The wrapped value, or `default` when there is none. */
    function GetOr(default: T): T
    {
      match this
      case Some(v) => v
      case None => default
    }
  }
}
